=== FILE: README.md ===
# tikpp core, modelled in Dafny

tikpp is a C++ client for the MikroTik RouterOS API: a TCP stream of
sentences, each a run of length-prefixed words ended by an empty word.
This project models the sequential logic at its core:

- **Connection engine** (`basic_api`, module `BasicApi`). The engine is an
  immutable record: state (closed, connecting or connected), the 32-bit tag
  counter, the FIFO send queue, the writes in flight and the tag → callback
  table. Each asynchronous completion is an input event. Every step function
  returns the new engine and the effects it caused, in order: handler and
  callback calls, and the connects, writes and reads it starts. A callback's
  "keep me" answer is an input of the read step.
- **Sentence assembler** (`async_read_response`, module `ResponseReader`).
  It reads a finite stream of word-read results until the first empty word
  or error. It produces one outcome: the transport error, `invalid_response`,
  `fatal_response`, `untagged_response` or a delivered response.
- **Word reader** (`async_read_word`, module `WordReader`). It reads a
  length, then exactly that many payload bytes, from a byte sequence.
- **Error codes** (`error_code`, module `ErrorCodes`). This covers the
  enumeration, its integer coding, and comparing a boost error code with an
  enumerator.
- **`getall` command** (module `GetAllCommand`). Its command word is the
  path plus `/getall`. Its `.proplist` is the comma-join of the model's field
  names.
- **Hotspot user model** (module `HotspotUser`). It fixes the API path and
  the order in which `convert` visits the keys.
- **Repository** (`api_repository::load_all`, module `ApiRepository`). It
  folds the streamed responses for one request into a collection.

Some parts of the library sit outside this model and appear here as
parameters:

- the length-prefix decoder (`LengthDecoder`);
- a response's validity, type, tag and emptiness (`ResponseRules`);
- a model's factory and its base-model keys.

The socket, the connect and the reads and writes appear only as effects and
input events.

## Model

| member | source | states |
|---|---|---|
| ErrorCodes.ToInt | include/tikpp/error_code.hpp:26-36 | an enumerator's integer is its position in the declaration |
| ErrorCodes.ValuesFollowDeclarationOrder | include/tikpp/error_code.hpp:26-36 | the values are consecutive: success is 0, unknown_error is 18, and the i-th declared enumerator is i |
| ErrorCodes.DeclaredDistinct | include/tikpp/error_code.hpp:26-36 | no enumerator appears twice in the declaration |
| ErrorCodes.ToIntInjective | include/tikpp/error_code.hpp:26-36 | two enumerators have the same integer exactly when they are the same enumerator |
| ErrorCodes.MakeErrorCode | include/tikpp/error_code.hpp:45 | a code made from an enumerator is in the library's category and signals an error unless the enumerator is success |
| ErrorCodes.Matches | include/tikpp/error_code.hpp:38-41 | an error code equals an enumerator exactly when its value is the declaration position of that enumerator |
| ErrorCodes.MatchesIgnoresCategory | include/tikpp/error_code.hpp:38-41 | the comparison gives the same answer whatever the error code's category |
| ErrorCodes.MatchesSuccessIffZero | include/tikpp/error_code.hpp:38-41 | an error code equals success exactly when its value is 0, that is, exactly when it is not an error |
| ErrorCodes.MakeErrorCodeRoundTrip | include/tikpp/error_code.hpp:38-45 | a code made from an enumerator equals that enumerator and no other |
| WordReader.ReadWord | include/tikpp/detail/operations/async_read_word.hpp:23-46 | a length-stage error is passed on and no payload is read; a stream shorter than the length fails with eof; a success reads exactly `len` bytes and leaves the rest of the stream |
| WordReader.Deliver | include/tikpp/detail/operations/async_read_word.hpp:24-38 | the handler gets an empty string with every error, and a cleared error code with every word |
| WordReader.ReadSucceedsIff | include/tikpp/detail/operations/async_read_word.hpp:24-37 | the handler sees no error exactly when the length stage succeeded and the payload was all there; the word is then `len` bytes long, and after an error it is empty |
| WordReader.ReadsBackPayload | include/tikpp/detail/operations/async_read_word.hpp:28-41 | a payload of the decoded length placed after the prefix is read back exactly, and what follows it is left unread |
| WordReader.ZeroLengthIsTerminator | include/tikpp/detail/operations/async_read_word.hpp:28-37 | a decoded length of 0 gives the empty word with no error and consumes nothing |
| ResponseReader.Classify | include/tikpp/detail/operations/async_read_response.hpp:29-48 | a sentence is delivered exactly when it is valid, not fatal and tagged, and then as exactly its words; otherwise it gives invalid_response, fatal_response or untagged_response (the fatal check before the tag check), each with an empty response |
| ResponseReader.ReadResponse | include/tikpp/detail/operations/async_read_response.hpp:67-79 | reading a sentence completes exactly when some word read ends it, at the first such read, having consumed that read and the ones before it |
| ResponseReader.Collect | include/tikpp/detail/operations/async_read_response.hpp:24-55 | the handler is called exactly when some word read ends the sentence, at the first such read, with the outcome of that read and the words collected before it |
| ResponseReader.ReadResponseOutcome | include/tikpp/detail/operations/async_read_response.hpp:24-55 | one handler call, at the first error or empty word: an error gives that error with an empty response, and an empty word gives the classification of exactly the earlier words in arrival order |
| ResponseReader.DeliveredWordsAreNonEmpty | include/tikpp/detail/operations/async_read_response.hpp:29-53 | a delivered response holds no empty word, so the terminator is never stored |
| ResponseReader.ReadResponseIgnoresLaterWords | include/tikpp/detail/operations/async_read_response.hpp:24-55 | no word read after the terminating one is consumed or changes the outcome |
| ResponseReader.FailuresAreErrors | include/tikpp/detail/operations/async_read_response.hpp:36-47 | a response handed over without error is valid, not fatal and tagged; every error comes with an empty response |
| BasicApi.IsOpen | include/tikpp/basic_api.hpp:115-117 | the engine counts as open while it is connecting and while it is connected, and only then |
| BasicApi.NextTag | include/tikpp/basic_api.hpp:85 | the counter's increment is +1 modulo 2^32 |
| BasicApi.Open | include/tikpp/basic_api.hpp:43-59 | while connecting the handler gets in_progress and nothing changes; a host parse error goes to the handler and the engine stays closed; only a parsed address moves the engine to connecting, adds the handler behind the connects in flight and starts a connect, with nothing else changed |
| BasicApi.ConnectDone | include/tikpp/basic_api.hpp:60-73 | as written, the completion needs the connecting state; success makes the engine connected and starts the read loop; failure closes it; the handler captured by the oldest connect in flight receives the result in both cases, after the read loop has been started on success, and that connect is no longer in flight; nothing else changes or starts |
| BasicApi.ConnectDoneCorrected | include/tikpp/basic_api.hpp:60-73 | corrected completion: it is accepted in any state; it always reports to the handler of its own connect and to no other; a connect abandoned by a close changes nothing else; the awaited connect completes as written |
| BasicApi.Close | include/tikpp/basic_api.hpp:76-80 | closing needs an open engine and always leaves it closed, with queue, in-flight writes, connects in flight and pending table untouched |
| BasicApi.MakeRequest | include/tikpp/basic_api.hpp:82-86 | the request carries the counter's current value as its tag, and the counter advances by one modulo 2^32 |
| BasicApi.Allocate | include/tikpp/basic_api.hpp:82-86 | the i-th of consecutive make_request calls gets the starting counter value plus i, modulo 2^32 |
| BasicApi.FreshEngineTagsIncrease | include/tikpp/basic_api.hpp:82-86 | on a new engine the tags are 0, 1, 2, … and strictly increase until the counter wraps |
| BasicApi.SendNext | include/tikpp/basic_api.hpp:134-143 | the queue head is taken off in FIFO order; if the engine is not open only that entry's callback gets not_connected, nothing is written and no pending entry is added; otherwise its write starts; nothing else in the engine changes |
| BasicApi.Post | include/tikpp/basic_api.hpp:88-97 | send queues the entry and pops it straight away, so its write starts even when another write is in flight; the state, counter, connects in flight and pending table are untouched |
| BasicApi.PostSerialized | include/tikpp/basic_api.hpp:88-97 | corrected send: with a write in flight it only queues the entry; with none, an open engine starts writing the oldest queued request and a closed one takes it off and tells its callback not_connected, with nothing else changed; so at most one write is ever in flight |
| BasicApi.Register | include/tikpp/basic_api.hpp:161-162 | emplace adds the tag with its callback and never overwrites a tag already present |
| BasicApi.WriteDone | include/tikpp/basic_api.hpp:148-168 | on a closed engine the callback gets not_connected and draining stops; a write error closes the engine and gives the callback the error with no pending entry, changing nothing but the state, the writes in flight and the queue; a success registers the tag; pending entries are never lost; a success changes nothing but the pending table, the writes in flight and the queue, and with an empty queue causes no effect; an error with an empty queue only closes the engine and tells the callback; draining continues while the queue is non-empty: after a success the next queued request is written; after an error the finished callback gets the error and the next queued one gets not_connected |
| BasicApi.ReadDone | include/tikpp/basic_api.hpp:176-210 | a read error closes the engine; an unknown tag closes it and no callback is called; a known tag's callback gets the response and `false` erases only that entry while `true` keeps the table, and nothing else in the engine changes; reading resumes exactly when the engine stays open |
| BasicApi.ReadLoopAcceptsEverySentence | include/tikpp/basic_api.hpp:181-199 | every outcome of a sentence read can be dispatched: one without error always has the tag that dispatch looks up |
| BasicApi.CloseDuringConnectAsWritten | include/tikpp/basic_api.hpp:60-63 | as written, `async_open` then `close` leaves the connect in flight, and its completion finds the engine closed, so the assertion at the head of the completion fails |
| BasicApi.StaleConnectAsWritten | include/tikpp/basic_api.hpp:43-80 | as written, open, close and open again: a failing first completion calls the first handler and closes the engine while the second connect is still in flight, whose completion then fails the assertion |
| BasicApi.StaleConnectCorrected | include/tikpp/basic_api.hpp:43-80 | with the corrected completion, the same sequence reports the abandoned connect to the first handler only, and the second connect alone decides the state and reaches the second handler |
| BasicApi.CorrectedKeepsConnects | include/tikpp/basic_api.hpp:43-80 | with the corrections, a connecting engine always has a connect in flight, and a connect completion changes the state exactly when it is the awaited connect |
| BasicApi.LifecycleIsRespected | include/tikpp/basic_api.hpp:43-80 | every step follows closed → connecting → connected or closed → closed; a connected engine only ever closes |
| BasicApi.QueueStaysEmptyAsWritten | include/tikpp/basic_api.hpp:88-97 | as written, the send queue is empty after every step, so draining from a write completion never finds work |
| BasicApi.ConcurrentWritesAsWritten | include/tikpp/basic_api.hpp:88-97 | as written, two sends on a connected engine leave two writes in flight on the one socket |
| BasicApi.SerializedWritesOneAtATime | include/tikpp/basic_api.hpp:134-168 | with the corrected send, every step keeps at most one write in flight |
| BasicApi.SerializedIsFifo | include/tikpp/basic_api.hpp:134-168 | with the corrected send, the outstanding requests form one FIFO: a step only appends the submitted entry and only removes from the front |
| BasicApi.SubmitIsFifo | include/tikpp/basic_api.hpp:88-97 | a corrected send appends its entry behind every outstanding request, failing entries only from the front when the engine is closed |
| BasicApi.WriteDoneIsFifo | include/tikpp/basic_api.hpp:148-168 | with one write in flight, a write completion removes outstanding requests only from the front |
| GetAllCommand.Join | include/tikpp/commands/getall.hpp:26 | joining no names gives the empty string, and the joined list starts with the first name |
| GetAllCommand.GetAll | include/tikpp/commands/getall.hpp:18-28 | the command word is the path followed by "/getall", the tag is passed through, and there is exactly one parameter, `.proplist`, holding the joined field names |
| GetAllCommand.GetAllWhere | include/tikpp/commands/getall.hpp:30-32 | the query constructor is the plain command with the query words added |
| GetAllCommand.ProplistRoundTrip | include/tikpp/commands/getall.hpp:20-26 | splitting the `.proplist` at commas gives back the field names in visiting order, for at least one comma-free name |
| GetAllCommand.ProplistCommaCount | include/tikpp/commands/getall.hpp:26 | n ≥ 1 comma-free names give exactly n − 1 commas, and no names give the empty string |
| GetAllCommand.ProplistHasNoStrayComma | include/tikpp/commands/getall.hpp:26 | for at least one comma-free name whose first and last names are non-empty, the joined list neither starts nor ends with a comma (an empty first or last name would give one, as `boost::join` does) |
| GetAllCommand.JoinAppend | include/tikpp/commands/getall.hpp:20-26 | names visited earlier are joined earlier: two non-empty lists join with one comma between their joins |
| HotspotUser.Convert | include/tikpp/models/ip/hotspot/user.hpp:19-27 | convert visits the base model's keys first, then the user's own four |
| HotspotUser.OwnKeysMatchMembers | include/tikpp/models/ip/hotspot/user.hpp:23-26 | the user's keys are name, password, profile and disabled, in that order; they are distinct, and each is bound to the member of the same name |
| HotspotUser.OwnBindingsMatchMembers | include/tikpp/models/ip/hotspot/user.hpp:13-26 | for any user, the keys name, password, profile and disabled read the user's name, password, profile and disabled flag, in that order, each key distinct and bound to the member of the same name |
| HotspotUser.VisitedKeys | include/tikpp/models/ip/hotspot/user.hpp:21-26 | the collected keys are the base keys followed by name, password, profile, disabled |
| HotspotUser.JoinOwnKeys | include/tikpp/models/ip/hotspot/user.hpp:23-26 | the user's own keys join to "name,password,profile,disabled" |
| HotspotUser.UserGetAll | include/tikpp/models/ip/hotspot/user.hpp:11-26 | the user's command is "/ip/hotspot/user/getall", and its `.proplist` ends with "name,password,profile,disabled" after the base keys |
| ApiRepository.OnResponse | include/tikpp/api_repository.hpp:37-52 | an error completes with a null collection; a response without properties completes with the collection and success; any other response appends one model and keeps reading without completing; the handler is called exactly when the callback returns false |
| ApiRepository.Aggregate | include/tikpp/api_repository.hpp:36-52 | while the callback asks for more, each call adds one model; the load completes at most once, at a call that carried an error or an empty response |
| ApiRepository.StreamedRowsAreCollected | include/tikpp/api_repository.hpp:38-51 | k responses with properties then one without give success and the k models in arrival order |
| ApiRepository.ErrorAbandonsRows | include/tikpp/api_repository.hpp:40-43 | an error after k rows completes with that error and no collection |
| ApiRepository.CompletesOnce | include/tikpp/api_repository.hpp:40-51 | after the completing call, further calls change nothing |
| ApiRepository.LoadAll | include/tikpp/api_repository.hpp:33-36 | load_all sends a getall for the model's path on a freshly allocated tag and queues it behind the earlier requests; with a write in flight nothing else changes and nothing starts; with no write in flight, an open engine starts writing the oldest queued request, and a closed one takes it off and tells its callback not_connected |

## Findings

| source | as written | input that shows it | evidently intended | confidence | as-written member | corrected member |
|---|---|---|---|---|---|---|
| include/tikpp/basic_api.hpp:91-96 | `send` always calls `send_next`, even when an `async_write` is still in flight | open and connect, then call `send` twice before the first write completes: two writes are in flight on one socket | one write at a time: the queue is drained by the write completion (lines 165-167), which only works if `send` does not start a second write | medium, not executed | BasicApi.ConcurrentWritesAsWritten | BasicApi.SerializedWritesOneAtATime |
| include/tikpp/basic_api.hpp:60-72 | the connect completion asserts the connecting state and always sets the state, but `close` is allowed while connecting and leaves the connect in flight | `async_open`, then `close` before the connect completes: the completion finds the engine closed; or `async_open`, `close`, `async_open`: the first connect's completion calls the first handler and closes the second attempt | a connect abandoned by a close reports to its own handler and leaves the engine alone | medium, not executed | BasicApi.CloseDuringConnectAsWritten | BasicApi.ConnectDoneCorrected |

Boost.Asio forbids starting a second write on a stream before the first
completes. If it is done anyway, the bytes of two requests can interleave on
the wire. `BasicApi.QueueStaysEmptyAsWritten` also shows that, as written,
the draining code in the write completion never finds work. The repository
layer (`ApiRepository.LoadAll`) uses the corrected `PostSerialized`. For
that version, `BasicApi.SerializedIsFifo` proves that requests are written
strictly in submission order.

The second row concerns `close` during a connect. `close` passes its own
assertion while the engine is connecting, but it does not stop the connect
that is in flight. That connect still completes, and its completion asserts
the connecting state (line 63). The completion calls the handler captured
when the connect started. After open, close and a second open, the first
connect's completion therefore reports to the first handler and decides
the state of the second attempt. The engine as written (`BasicApi.Apply`)
takes a connect completion only when that assertion holds. The corrected
engine (`BasicApi.ApplyCorrected`) takes every completion and uses
`BasicApi.ConnectDoneCorrected`.

## Left out

- Boost.Asio plumbing is not modelled: sockets, `io_context::post`,
  `async_connect`, `async_write`, `async_read`, completion tokens and the
  `shared_from_this` captures. A posted closure runs as one step. Each
  completion is an input event. Started I/O is an effect.
- `std::atomic` on the state and the tag counter: both are plain fields,
  because all engine logic runs on one execution context.
- `is_open()` also tests the socket. The model assumes that the socket is
  open whenever the state is not closed, so `is_open()` reduces to the state
  test. One path breaks this, and it is not modelled. `async_open` sets the
  connecting state (basic_api.hpp:59) before `async_connect` (line 60)
  opens the socket. If the socket cannot be opened, the error completes
  later, and until then the state is connecting while the socket is closed.
  In that window the source's `is_open()` is false. There `close` would fail
  its assertion and `send_next` would answer not_connected. The model, with
  `BasicApi.IsOpen` true, lets `close` proceed and starts the write.
- Assertions in the source become preconditions:
  - `close` needs an open engine;
  - `async_open` needs a state other than connected;
  - connect completion needs the connecting state (`BasicApi.AssertsHold`;
    the second Findings row gives an input that breaks it);
  - `send_next` needs a non-empty queue.
- Connects in flight complete in the order they were started
  (`BasicApi.ConnectDone` completes the oldest one). The error a connect
  cancelled by `close` completes with (`operation_aborted`) is not pinned;
  it is an input like every other completion's error. A build without
  assertions skips the check at line 63. After a plain close, such a build
  behaves like `BasicApi.ConnectDoneCorrected` when the abandoned connect
  fails, as a cancelled one does. It is not modelled separately.
- Concurrent writes complete in the order they were started
  (`BasicApi.WriteDone` completes the oldest one).
- Outstanding reads are not tracked. A read started before a close and
  completed after a reopen is not modelled.
- A callback that calls back into the engine (to close it or to send) while
  it is being dispatched is not modelled. The callback's only output is its
  boolean answer.
- `close` notifies no pending callback and no queued request. The model
  follows the code, which leaves them in place.
- `on_response` names `error_code::invalid_response_tag`, which the
  enumeration does not declare. The error is used only by `on_error`, which
  closes the engine and logs. The model closes the engine and carries no
  error.
- The `std::cout` logging in `on_error`, `api_version`, `version()`,
  `socket()` and `create()` carry no modelled behaviour.
- `async_read_word_length.hpp` is not part of this model. The length
  decoder is the parameter `LengthDecoder`.
- `response.hpp` is not part of this model. Validity, type, tag and
  emptiness are the parameter `ResponseRules`.
- `request.hpp` is not part of this model. Its request encoding is left
  out: a write effect carries the request itself. `query` is modelled as
  setting the query words of a request that had none.
- `converters.hpp` and `model.hpp` are not part of this model. The base
  model's keys and `Model::create` are parameters.
- `api_repository` calls `make_request<getall>` and `async_send`, which
  `basic_api` does not declare. `ApiRepository.LoadAll` models them as
  a tag taken from the engine's counter plus the engine's (corrected) send.
- `error_category::message`, `default_error_condition` and
  `make_error_condition` are declared but not defined in the files modelled
  here. `make_error_code` is modelled as the enumerator's value in the
  library's category.
- `in_progress` and `not_connected` use their Linux errno values (115 and
  107). A short payload read fails with asio's `eof` (misc category, value 2).
  Other transport errors arrive as arbitrary non-zero error codes in the
  word reads (`WordEvent`) and in the engine's input events.
- WordReader.ReadWord: the payload stage fails only with `eof` when the
  stream is short. A reset or `operation_aborted` during the payload read
  (async_read_word.hpp:33-35) cannot occur in it. Such errors reach the
  response reader only as the error of a `WordEvent`.

=== FILE: api_repository.dfy ===
/** Loading every row of a model: one "get all" request is sent, the Reply
    rows streamed back for its tag are collected in arrival order, and the
    completion handler is called once, with the collection or with an error.
    Building a model from a response is part of the library outside this
    model and is a parameter here. */
module ApiRepository {
  import opened Protocol
  import opened ErrorCodes
  import opened Requests
  import opened ResponseReader
  import opened GetAllCommand
  import opened BasicApi

  /** A model type: its schema and its factory (Model::create). */
  datatype ModelType<M> = ModelType(schema: Schema, create: Response -> M)

  /** The completion handler's arguments: an error code and the collection,
      absent (null) after an error. */
  datatype Loaded<M> = Loaded(err: SysError, rows: Option<seq<M>>)

  /** One call of the response callback: the value it returns, the collection
      it leaves behind, and the completion handler call it makes, if any. */
  datatype Reaction<M> = Reaction(keep: bool, rows: seq<M>, completed: Option<Loaded<M>>)

  /** load_all's response callback, holding the collection built so far. An
      error completes with no collection; a response without properties
      completes with the collection; any other response adds one model and
      asks for more. The handler is called exactly when the callback
      returns false. */
  function OnResponse<M>(rules: ResponseRules, model: ModelType<M>, rows: seq<M>, err: SysError, resp: Response)
    : (r: Reaction<M>)
    ensures r.completed.Some? <==> !r.keep
    ensures IsError(err) ==> r.completed == Some(Loaded(err, None))
    ensures !IsError(err) && rules.isEmpty(resp.words) ==> r.completed == Some(Loaded(NoError, Some(rows)))
    ensures !IsError(err) && !rules.isEmpty(resp.words) ==> r.rows == rows + [model.create(resp)]
    ensures !IsError(err) && !rules.isEmpty(resp.words) ==> r.keep && r.completed.None?
  {
    if IsError(err) then Reaction(false, rows, Some(Loaded(err, None)))
    else if rules.isEmpty(resp.words) then Reaction(false, rows, Some(Loaded(NoError, Some(rows))))
    else Reaction(true, rows + [model.create(resp)], None)
  }

  /** The arguments of one callback call. */
  datatype Delivery = Delivery(err: SysError, resp: Response)

  /** Either every call so far asked for more and `rows` is the collection,
      or the handler was called with `loaded` at call number `consumed`. */
  datatype Aggregation<M> = Streaming(rows: seq<M>) | Finished(loaded: Loaded<M>, consumed: nat)

  /** The callback applied to the calls the engine makes, in order, until it
      returns false (after which the engine erases it and calls it no more). */
  function Aggregate<M>(rules: ResponseRules, model: ModelType<M>, rows: seq<M>, calls: seq<Delivery>)
    : (a: Aggregation<M>)
    decreases |calls|
    ensures a.Streaming? ==> |a.rows| == |rows| + |calls| && a.rows[..|rows|] == rows
    ensures a.Finished? ==> 1 <= a.consumed <= |calls|
    ensures a.Finished? ==> IsError(calls[a.consumed - 1].err) || rules.isEmpty(calls[a.consumed - 1].resp.words)
  {
    if |calls| == 0 then Streaming(rows)
    else
      var r := OnResponse(rules, model, rows, calls[0].err, calls[0].resp);
      if !r.keep then Finished(r.completed.value, 1)
      else
        match Aggregate(rules, model, r.rows, calls[1..])
        case Streaming(all) => Streaming(all)
        case Finished(loaded, n) => Finished(loaded, n + 1)
  }

  /** Successful deliveries of the given responses. */
  function Rows(resps: seq<Response>): (ds: seq<Delivery>)
    ensures |ds| == |resps|
    ensures forall i :: 0 <= i < |resps| ==> ds[i] == Delivery(NoError, resps[i])
  {
    seq(|resps|, i requires 0 <= i < |resps| => Delivery(NoError, resps[i]))
  }

  function Models<M>(model: ModelType<M>, resps: seq<Response>): (ms: seq<M>)
    ensures |ms| == |resps|
    ensures forall i :: 0 <= i < |resps| ==> ms[i] == model.create(resps[i])
  {
    seq(|resps|, i requires 0 <= i < |resps| => model.create(resps[i]))
  }

  /** k responses with properties followed by one without complete the load
      with no error and the k models, in arrival order, at the last call. */
  lemma {:induction false} StreamedRowsAreCollected<M>(
    rules: ResponseRules, model: ModelType<M>, rows: seq<M>, resps: seq<Response>, last: Response)
    requires forall i :: 0 <= i < |resps| ==> !rules.isEmpty(resps[i].words)
    requires rules.isEmpty(last.words)
    ensures Aggregate(rules, model, rows, Rows(resps) + [Delivery(NoError, last)])
      == Finished(Loaded(NoError, Some(rows + Models(model, resps))), |resps| + 1)
    decreases |resps|
  {
    var calls := Rows(resps) + [Delivery(NoError, last)];
    if |resps| == 0 {
      assert calls == [Delivery(NoError, last)];
      assert rows + Models(model, resps) == rows;
    } else {
      assert calls[0] == Delivery(NoError, resps[0]);
      assert calls[1..] == Rows(resps[1..]) + [Delivery(NoError, last)];
      StreamedRowsAreCollected(rules, model, rows + [model.create(resps[0])], resps[1..], last);
      assert (rows + [model.create(resps[0])]) + Models(model, resps[1..]) == rows + Models(model, resps);
    }
  }

  /** An error after k rows completes the load with that error and no
      collection; the rows read so far are dropped. */
  lemma {:induction false} ErrorAbandonsRows<M>(
    rules: ResponseRules, model: ModelType<M>, rows: seq<M>, resps: seq<Response>, err: SysError)
    requires forall i :: 0 <= i < |resps| ==> !rules.isEmpty(resps[i].words)
    requires IsError(err)
    ensures Aggregate(rules, model, rows, Rows(resps) + [Delivery(err, EmptyResponse)])
      == Finished(Loaded(err, None), |resps| + 1)
    decreases |resps|
  {
    var calls := Rows(resps) + [Delivery(err, EmptyResponse)];
    if |resps| == 0 {
      assert calls == [Delivery(err, EmptyResponse)];
    } else {
      assert calls[0] == Delivery(NoError, resps[0]);
      assert calls[1..] == Rows(resps[1..]) + [Delivery(err, EmptyResponse)];
      ErrorAbandonsRows(rules, model, rows + [model.create(resps[0])], resps[1..], err);
    }
  }

  /** The handler is called once: calls after the completing one change nothing. */
  lemma {:induction false} CompletesOnce<M>(
    rules: ResponseRules, model: ModelType<M>, rows: seq<M>, calls: seq<Delivery>, later: seq<Delivery>)
    requires Aggregate(rules, model, rows, calls).Finished?
    ensures Aggregate(rules, model, rows, calls + later) == Aggregate(rules, model, rows, calls)
    decreases |calls|
  {
    assert (calls + later)[0] == calls[0];
    var r := OnResponse(rules, model, rows, calls[0].err, calls[0].resp);
    if r.keep {
      assert (calls + later)[1..] == calls[1..] + later;
      CompletesOnce(rules, model, r.rows, calls[1..], later);
    }
  }

  /** load_all: a "get all" request for the model's path, on a freshly
      allocated tag, handed to the engine's (serialized) send. */
  function LoadAll<M>(e: Engine, model: ModelType<M>, cb: CallbackId): (r: (Step, Request))
    ensures r.1.command == model.schema.apiPath + CommandSuffix
    ensures r.1 == GetAll(model.schema, e.nextTag)
    ensures r.0.engine.nextTag == (e.nextTag + 1) % Uint32Modulus
    ensures r.0.engine.pending == e.pending && r.0.engine.state == e.state
    ensures e.writing != [] ==> Outstanding(r.0.engine) == Outstanding(e) + [Entry(r.1, cb)]
    ensures e.writing == [] && e.queue == [] && IsOpen(e) ==>
      r.0.effects == [BeginWrite(r.1)] && r.0.engine.writing == [Entry(r.1, cb)]
    ensures e.writing != [] ==>
      r.0 == Step(e.(nextTag := (e.nextTag + 1) % Uint32Modulus, queue := e.queue + [Entry(r.1, cb)]), [])
    ensures r.0.engine.connects == e.connects
    ensures e.writing == [] && IsOpen(e) ==> Outstanding(r.0.engine) == Outstanding(e) + [Entry(r.1, cb)]
    ensures e.writing == [] && IsOpen(e) ==> r.0.effects == [BeginWrite((e.queue + [Entry(r.1, cb)])[0].req)]
    ensures e.writing == [] && !IsOpen(e) ==>
      && r.0.engine.queue == (e.queue + [Entry(r.1, cb)])[1..]
      && r.0.engine.writing == []
      && r.0.effects == [Invoked((e.queue + [Entry(r.1, cb)])[0].cb, NotConnected, EmptyResponse)]
  {
    var req := GetAll(model.schema, e.nextTag);
    var e1 := e.(nextTag := NextTag(e.nextTag));
    (PostSerialized(e1, req, cb), req)
  }
}

=== FILE: basic_api.dfy ===
/** The connection engine: a closed/connecting/connected state, a tag
    counter, a FIFO send queue, the writes in flight and the tag -> callback
    table of requests awaiting responses. Every asynchronous completion is an
    input event; each step returns the new engine and the effects it caused
    (handler and callback calls, and the I/O it starts), in order. */
module BasicApi {
  import opened Protocol
  import opened ErrorCodes
  import opened Requests
  import opened WordReader
  import opened ResponseReader

  datatype ApiState = Closed | Connecting | Connected

  /** Handlers passed to open and callbacks passed to send are opaque. */
  type HandlerId = nat
  type CallbackId = nat

  /** A queued or in-flight request with the callback that will receive its
      responses. */
  datatype Entry = Entry(req: Request, cb: CallbackId)

  datatype Engine = Engine(
    state: ApiState,
    connects: seq<HandlerId>,    // handlers of the connects started and not yet completed, oldest first
    nextTag: Tag,
    queue: seq<Entry>,
    writing: seq<Entry>,         // writes started and not yet completed, oldest first
    pending: map<Tag, CallbackId>)

  /** A freshly created engine: closed, tags counting from 0, nothing queued. */
  const Initial: Engine := Engine(Closed, [], 0, [], [], map[])

  datatype Effect =
    | OpenCompleted(handler: HandlerId, err: SysError)
    | BeginConnect
    | BeginWrite(req: Request)
    | BeginRead
    | Invoked(cb: CallbackId, err: SysError, resp: Response)

  datatype Step = Step(engine: Engine, effects: seq<Effect>)

  /** is_open: the state is not closed; the socket is open whenever that
      holds, so the socket test adds nothing. Open while connecting too. */
  function IsOpen(e: Engine): (b: bool)
    ensures b <==> e.state == Connecting || e.state == Connected
  {
    e.state != Closed
  }

  /** The state changes the engine may make in one step. */
  predicate Allowed(before: ApiState, after: ApiState)
  {
    before == after ||
    match before
    case Closed => after == Connecting
    case Connecting => true
    case Connected => after == Closed
  }

  /** The 32-bit tag counter's increment, wrapping to 0. */
  function NextTag(t: Tag): (u: Tag)
    ensures u == (t + 1) % Uint32Modulus
  {
    if t == Uint32Modulus - 1 then 0 else t + 1
  }

  /** async_open. While a connect is in progress the handler gets in_progress
      and nothing changes; a host that does not parse hands its error to the
      handler and the engine stays closed; otherwise a connect starts, and its
      completion will call this handler. */
  function Open(e: Engine, handler: HandlerId, parseErr: SysError): (s: Step)
    requires e.state != Connected
    ensures e.state == Connecting ==> s == Step(e, [OpenCompleted(handler, InProgress)])
    ensures e.state == Closed && IsError(parseErr) ==>
      s == Step(e, [OpenCompleted(handler, parseErr)])
    ensures s.engine.state == Connecting <==> e.state == Connecting || !IsError(parseErr)
    ensures BeginConnect in s.effects <==> e.state == Closed && !IsError(parseErr)
    ensures s.engine.pending == e.pending && s.engine.queue == e.queue && s.engine.nextTag == e.nextTag
    ensures s.engine.writing == e.writing
    ensures e.state == Closed && !IsError(parseErr) ==>
      s == Step(e.(state := Connecting, connects := e.connects + [handler]), [BeginConnect])
  {
    if e.state == Connecting then
      Step(e, [OpenCompleted(handler, InProgress)])
    else if IsError(parseErr) then
      Step(e, [OpenCompleted(handler, parseErr)])
    else
      assert e.state == Closed;
      Step(e.(state := Connecting, connects := e.connects + [handler]), [BeginConnect])
  }

  /** Completion of the oldest connect in flight, as written: the engine must
      be connecting (the assertion at the head of the completion); success
      connects and starts the read loop, failure closes; the handler captured
      by that connect gets the result either way. */
  function ConnectDone(e: Engine, err: SysError): (s: Step)
    requires e.state == Connecting && |e.connects| > 0
    ensures s.engine.state == (if IsError(err) then Closed else Connected)
    ensures s.engine == e.(state := s.engine.state, connects := e.connects[1..])
    ensures OpenCompleted(e.connects[0], err) in s.effects
    ensures BeginRead in s.effects <==> !IsError(err)
    ensures s.effects == if IsError(err) then [OpenCompleted(e.connects[0], err)]
                         else [BeginRead, OpenCompleted(e.connects[0], err)]
  {
    var e0 := e.(connects := e.connects[1..]);
    if IsError(err) then
      Step(e0.(state := Closed), [OpenCompleted(e.connects[0], err)])
    else
      Step(e0.(state := Connected), [BeginRead, OpenCompleted(e.connects[0], err)])
  }

  /** The oldest connect in flight is the one the engine is waiting for:
      the engine is connecting and no older attempt is still outstanding. */
  predicate AwaitedConnect(e: Engine)
  {
    e.state == Connecting && |e.connects| == 1
  }

  /** Completion of the oldest connect in flight, corrected: a connect that a
      close has abandoned (the engine closed, or closed and reopened since)
      reports to its own handler and leaves the engine alone; only the awaited
      connect moves the engine on, as ConnectDone does. */
  function ConnectDoneCorrected(e: Engine, err: SysError): (s: Step)
    requires |e.connects| > 0
    ensures s.engine == e.(state := s.engine.state, connects := e.connects[1..])
    ensures forall f :: f in s.effects && f.OpenCompleted? ==> f == OpenCompleted(e.connects[0], err)
    ensures OpenCompleted(e.connects[0], err) in s.effects
    ensures !AwaitedConnect(e) ==>
      s == Step(e.(connects := e.connects[1..]), [OpenCompleted(e.connects[0], err)])
    ensures AwaitedConnect(e) ==> s == ConnectDone(e, err)
  {
    if AwaitedConnect(e) then ConnectDone(e, err)
    else Step(e.(connects := e.connects[1..]), [OpenCompleted(e.connects[0], err)])
  }

  /** close: only an open engine may be closed, and it ends closed. Pending
      callbacks and queued requests are left where they are, unnotified. */
  function Close(e: Engine): (r: Engine)
    requires IsOpen(e)
    ensures !IsOpen(r)
    ensures r.pending == e.pending && r.queue == e.queue && r.writing == e.writing
    ensures r.nextTag == e.nextTag && r.connects == e.connects
  {
    e.(state := Closed)
  }

  /** make_request: the request carries the counter's current value and the
      counter moves on by one, wrapping at 2^32. */
  function MakeRequest(e: Engine, command: string): (r: (Engine, Request))
    ensures r.1 == NewRequest(command, e.nextTag)
    ensures r.0 == e.(nextTag := (e.nextTag + 1) % Uint32Modulus)
  {
    (e.(nextTag := NextTag(e.nextTag)), NewRequest(command, e.nextTag))
  }

  /** make_request called once per command, in order. */
  function Allocate(e: Engine, commands: seq<string>): (r: (Engine, seq<Request>))
    decreases |commands|
    ensures |r.1| == |commands|
    ensures forall i :: 0 <= i < |commands| ==>
      r.1[i] == NewRequest(commands[i], (e.nextTag + i) % Uint32Modulus)
    ensures r.0 == e.(nextTag := (e.nextTag + |commands|) % Uint32Modulus)
  {
    if |commands| == 0 then (e, [])
    else
      var (e1, req) := MakeRequest(e, commands[0]);
      var (e2, rest) := Allocate(e1, commands[1..]);
      forall j | 0 <= j < |rest|
        ensures rest[j] == NewRequest(commands[j + 1], (e.nextTag + (j + 1)) % Uint32Modulus)
      {
        ShiftMod(e.nextTag, j);
      }
      ShiftMod(e.nextTag, |commands| - 1);
      (e2, [req] + rest)
  }

  lemma ShiftMod(t: Tag, k: nat)
    ensures ((t + 1) % Uint32Modulus + k) % Uint32Modulus == (t + 1 + k) % Uint32Modulus
  {
    if t + 1 == Uint32Modulus {
      assert (t + 1) % Uint32Modulus == 0;
      assert (t + 1 + k) % Uint32Modulus == k % Uint32Modulus by {
        assert t + 1 + k == Uint32Modulus + k;
      }
    } else {
      assert (t + 1) % Uint32Modulus == t + 1;
    }
  }

  /** Tags handed out by a fresh engine start at 0 and go up by one per
      request: as long as the counter has not wrapped they strictly increase. */
  lemma {:induction false} FreshEngineTagsIncrease(commands: seq<string>)
    requires |commands| <= Uint32Modulus
    ensures var reqs := Allocate(Initial, commands).1;
      forall i :: 0 <= i < |commands| ==> reqs[i].tag == i
    ensures var reqs := Allocate(Initial, commands).1;
      forall i, j :: 0 <= i < j < |commands| ==> reqs[i].tag < reqs[j].tag
  {
    var reqs := Allocate(Initial, commands).1;
    assert Initial.nextTag == 0;
    forall i | 0 <= i < |commands|
      ensures reqs[i].tag == i
    {
      assert reqs[i].tag == (0 + i) % Uint32Modulus;
    }
  }

  /** send_next: the head of the queue is taken off. When the engine is not
      open only that entry's callback hears not_connected and nothing is
      written; otherwise its write starts. */
  function SendNext(e: Engine): (s: Step)
    requires |e.queue| > 0
    ensures s.engine.queue == e.queue[1..]
    ensures s.engine.pending == e.pending
    ensures s.engine.state == e.state && s.engine.nextTag == e.nextTag
    ensures IsOpen(e) ==> s.engine.writing == e.writing + [e.queue[0]]
    ensures IsOpen(e) ==> s.effects == [BeginWrite(e.queue[0].req)]
    ensures !IsOpen(e) ==> s.engine.writing == e.writing
    ensures !IsOpen(e) ==> s.effects == [Invoked(e.queue[0].cb, NotConnected, EmptyResponse)]
    ensures s.engine.connects == e.connects
    ensures IsOpen(e) ==>
      s.engine == e.(queue := e.queue[1..], writing := e.writing + [e.queue[0]])
    ensures !IsOpen(e) ==> s.engine == e.(queue := e.queue[1..])
  {
    var head := e.queue[0];
    var e0 := e.(queue := e.queue[1..]);
    if !IsOpen(e0) then
      Step(e0, [Invoked(head.cb, NotConnected, EmptyResponse)])
    else
      Step(e0.(writing := e0.writing + [head]), [BeginWrite(head.req)])
  }

  /** send, as written: the entry is queued and send_next runs at once, even
      while an earlier write is still in flight. */
  function Post(e: Engine, req: Request, cb: CallbackId): (s: Step)
    ensures e.queue == [] ==> s.engine.queue == []
    ensures e.queue == [] && IsOpen(e) ==>
      s.engine.writing == e.writing + [Entry(req, cb)] && s.effects == [BeginWrite(req)]
    ensures e.queue == [] && !IsOpen(e) ==>
      s.engine.writing == e.writing && s.effects == [Invoked(cb, NotConnected, EmptyResponse)]
    ensures s.engine.pending == e.pending && s.engine.state == e.state
    ensures s.engine.nextTag == e.nextTag && s.engine.connects == e.connects
    ensures e.queue == [] ==> s.engine == e.(writing := s.engine.writing)
  {
    SendNext(e.(queue := e.queue + [Entry(req, cb)]))
  }

  /** send, corrected: the entry is queued, and draining starts only when no
      write is in flight (a completing write drains the rest). */
  function PostSerialized(e: Engine, req: Request, cb: CallbackId): (s: Step)
    ensures e.writing != [] ==> s == Step(e.(queue := e.queue + [Entry(req, cb)]), [])
    ensures e.writing == [] && IsOpen(e) ==>
      s.engine.writing == [(e.queue + [Entry(req, cb)])[0]]
    ensures |e.writing| <= 1 ==> |s.engine.writing| <= 1
    ensures s.engine.pending == e.pending && s.engine.state == e.state
    ensures var q := e.queue + [Entry(req, cb)];
      e.writing == [] && IsOpen(e) ==>
        s == Step(e.(queue := q[1..], writing := [q[0]]), [BeginWrite(q[0].req)])
    ensures var q := e.queue + [Entry(req, cb)];
      e.writing == [] && !IsOpen(e) ==>
        s == Step(e.(queue := q[1..]), [Invoked(q[0].cb, NotConnected, EmptyResponse)])
  {
    var e1 := e.(queue := e.queue + [Entry(req, cb)]);
    if e.writing == [] then SendNext(e1) else Step(e1, [])
  }

  /** map::emplace: the tag is added with its callback unless it is already
      present, in which case the table is unchanged. */
  function Register(e: Engine, tag: Tag, cb: CallbackId): (r: Engine)
    ensures r.pending.Keys == e.pending.Keys + {tag}
    ensures forall t :: t in e.pending ==> r.pending[t] == e.pending[t]
    ensures tag !in e.pending ==> r.pending[tag] == cb
    ensures r == e.(pending := r.pending)
  {
    if tag in e.pending then e else e.(pending := e.pending[tag := cb])
  }

  /** Completion of the oldest write in flight. If the engine is no longer
      open, its callback hears not_connected and draining stops. On a write
      error the engine closes and the callback gets the error; on success the
      tag is registered for responses. Either way draining continues while
      the queue is not empty. */
  function WriteDone(e: Engine, err: SysError): (s: Step)
    requires |e.writing| > 0
    ensures |s.engine.writing| <= |e.writing|
    ensures !IsOpen(e) ==>
      s == Step(e.(writing := e.writing[1..]), [Invoked(e.writing[0].cb, NotConnected, EmptyResponse)])
    ensures IsOpen(e) && IsError(err) ==>
      !IsOpen(s.engine) && s.engine.pending == e.pending &&
      |s.effects| >= 1 && s.effects[0] == Invoked(e.writing[0].cb, err, EmptyResponse)
    ensures IsOpen(e) && !IsError(err) ==>
      s.engine.pending == Register(e, e.writing[0].req.tag, e.writing[0].cb).pending
    ensures forall t :: t in e.pending ==> t in s.engine.pending && s.engine.pending[t] == e.pending[t]
    ensures IsOpen(e) ==> s.engine.queue == if e.queue == [] then [] else e.queue[1..]
    ensures IsOpen(e) && !IsError(err) && e.queue != [] ==>
      s.engine.writing == e.writing[1..] + [e.queue[0]] && s.effects == [BeginWrite(e.queue[0].req)]
    ensures IsOpen(e) && IsError(err) && e.queue != [] ==>
      s.effects == [Invoked(e.writing[0].cb, err, EmptyResponse), Invoked(e.queue[0].cb, NotConnected, EmptyResponse)]
    ensures IsOpen(e) && !IsError(err) ==> s.engine.state == e.state && s.engine.nextTag == e.nextTag
    ensures IsOpen(e) ==> s.engine.nextTag == e.nextTag && s.engine.connects == e.connects
    ensures IsOpen(e) && IsError(err) && e.queue != [] ==>
      s.engine == e.(state := Closed, queue := e.queue[1..], writing := e.writing[1..])
    ensures IsOpen(e) && !IsError(err) && e.queue != [] ==>
      s.engine == e.(queue := e.queue[1..], writing := e.writing[1..] + [e.queue[0]], pending := s.engine.pending)
    ensures IsOpen(e) && !IsError(err) && e.queue == [] ==>
      s == Step(e.(writing := e.writing[1..], pending := s.engine.pending), [])
    ensures IsOpen(e) && IsError(err) && e.queue == [] ==>
      s == Step(e.(state := Closed, writing := e.writing[1..]), [Invoked(e.writing[0].cb, err, EmptyResponse)])
  {
    var head := e.writing[0];
    var e0 := e.(writing := e.writing[1..]);
    if !IsOpen(e0) then
      Step(e0, [Invoked(head.cb, NotConnected, EmptyResponse)])
    else
      var done :=
        if IsError(err) then Step(Close(e0), [Invoked(head.cb, err, EmptyResponse)])
        else Step(Register(e0, head.req.tag, head.cb), []);
      if |done.engine.queue| > 0 then
        var next := SendNext(done.engine);
        Step(next.engine, done.effects + next.effects)
      else
        done
  }

  /** Completion of a response read (read_next_response's handler and
      on_response / on_error). Nothing happens once the engine is closed. A
      read error, or a tag with no pending callback, closes the engine and
      calls no callback. A known tag's callback gets the response; its answer
      `keep` = false erases exactly that entry. Reading resumes exactly when
      the engine is still open. */
  function ReadDone(rules: ResponseRules, e: Engine, o: Outcome, keep: bool): (s: Step)
    requires IsOpen(e) && !IsError(o.err) ==> rules.tagOf(o.resp.words).Some?
    ensures !IsOpen(e) ==> s == Step(e, [])
    ensures IsOpen(e) && IsError(o.err) ==> s == Step(Close(e), [])
    ensures IsOpen(e) && !IsError(o.err) && rules.tagOf(o.resp.words).value !in e.pending ==>
      s == Step(Close(e), [])
    ensures IsOpen(e) && !IsError(o.err) && rules.tagOf(o.resp.words).value in e.pending ==>
      var tag := rules.tagOf(o.resp.words).value;
      && s.effects == [Invoked(e.pending[tag], NoError, o.resp), BeginRead]
      && s.engine.pending == (if keep then e.pending else e.pending - {tag})
      && s.engine.state == e.state
    ensures IsOpen(e) && !IsError(o.err) && rules.tagOf(o.resp.words).value in e.pending ==>
      s.engine == e.(pending := s.engine.pending)
    ensures BeginRead in s.effects <==> IsOpen(e) && IsOpen(s.engine)
    ensures s.engine.queue == e.queue && s.engine.writing == e.writing
  {
    if !IsOpen(e) then Step(e, [])
    else if IsError(o.err) then Step(Close(e), [])
    else
      var tag := rules.tagOf(o.resp.words).value;
      if tag !in e.pending then Step(Close(e), [])
      else
        var cb := e.pending[tag];
        var e1 := if keep then e else e.(pending := e.pending - {tag});
        Step(e1, [Invoked(cb, NoError, o.resp), BeginRead])
  }

  /** The inputs that drive the engine. */
  datatype Event =
    | OpenRequested(handler: HandlerId, parseErr: SysError)
    | ConnectFinished(err: SysError)
    | CloseRequested
    | Submitted(req: Request, cb: CallbackId)
    | WriteFinished(err: SysError)
    | ResponseRead(outcome: Outcome, keep: bool)

  /** When an event may arrive: what the engine's own assertions demand, and a
      completion only for an operation that was started. */
  predicate Enabled(rules: ResponseRules, e: Engine, ev: Event)
  {
    match ev
    case OpenRequested(_, _) => e.state != Connected
    case ConnectFinished(_) => |e.connects| > 0
    case CloseRequested => IsOpen(e)
    case Submitted(_, _) => true
    case WriteFinished(_) => |e.writing| > 0
    case ResponseRead(o, _) => IsOpen(e) && !IsError(o.err) ==> rules.tagOf(o.resp.words).Some?
  }

  /** The assertion inside the connect completion: the engine must still be
      connecting when a connect completes. */
  predicate AssertsHold(e: Engine, ev: Event)
  {
    ev.ConnectFinished? ==> e.state == Connecting
  }

  /** Whatever a sentence read completes with, the read loop can take it:
      an outcome without error always carries the tag dispatch looks up. */
  lemma {:induction false} ReadLoopAcceptsEverySentence(
    rules: ResponseRules, e: Engine, events: seq<WordEvent>, keep: bool)
    requires ReadResponse(rules, events).Completed?
    ensures Enabled(rules, e, ResponseRead(ReadResponse(rules, events).outcome, keep))
  {
  }

  /** One step of the engine as the code is written. */
  function Apply(rules: ResponseRules, e: Engine, ev: Event): Step
    requires Enabled(rules, e, ev) && AssertsHold(e, ev)
  {
    match ev
    case OpenRequested(h, parseErr) => Open(e, h, parseErr)
    case ConnectFinished(err) => ConnectDone(e, err)
    case CloseRequested => Step(Close(e), [])
    case Submitted(req, cb) => Post(e, req, cb)
    case WriteFinished(err) => WriteDone(e, err)
    case ResponseRead(o, keep) => ReadDone(rules, e, o, keep)
  }

  /** One step of the engine with both corrections: send serializes writes,
      and a connect completion tolerates a close. */
  function ApplyCorrected(rules: ResponseRules, e: Engine, ev: Event): Step
    requires Enabled(rules, e, ev)
  {
    match ev
    case OpenRequested(h, parseErr) => Open(e, h, parseErr)
    case ConnectFinished(err) => ConnectDoneCorrected(e, err)
    case CloseRequested => Step(Close(e), [])
    case Submitted(req, cb) => PostSerialized(e, req, cb)
    case WriteFinished(err) => WriteDone(e, err)
    case ResponseRead(o, keep) => ReadDone(rules, e, o, keep)
  }

  /** Every step follows closed -> connecting -> {connected | closed} -> closed;
      in particular connecting is never re-entered while connecting, and a
      connected engine only ever closes. */
  lemma {:induction false} LifecycleIsRespected(rules: ResponseRules, e: Engine, ev: Event)
    requires Enabled(rules, e, ev)
    ensures AssertsHold(e, ev) ==> Allowed(e.state, Apply(rules, e, ev).engine.state)
    ensures Allowed(e.state, ApplyCorrected(rules, e, ev).engine.state)
  {
  }

  /** As written, send pops the entry it has just queued, so the queue is
      empty after every step and draining from a write completion never has
      anything to do. */
  lemma {:induction false} QueueStaysEmptyAsWritten(rules: ResponseRules, e: Engine, ev: Event)
    requires Enabled(rules, e, ev) && AssertsHold(e, ev)
    requires e.queue == []
    ensures Apply(rules, e, ev).engine.queue == []
  {
  }

  /** As written, two sends on a connected engine put two writes in flight at
      once on the same socket. */
  lemma ConcurrentWritesAsWritten(a: Request, b: Request)
    ensures
      var e1 := Open(Initial, 0, NoError).engine;
      var e2 := ConnectDone(e1, NoError).engine;
      var e3 := Post(e2, a, 1).engine;
      var s4 := Post(e3, b, 2);
      && e2.state == Connected
      && s4.engine.writing == [Entry(a, 1), Entry(b, 2)]
      && s4.effects == [BeginWrite(b)]
  {
  }

  /** As written, closing while a connect is in progress leaves that connect
      to complete, and its completion finds the engine closed: the assertion
      at the head of the completion fails. */
  lemma CloseDuringConnectAsWritten(rules: ResponseRules, err: SysError)
    ensures
      var e := Close(Open(Initial, 7, NoError).engine);
      && e.connects == [7]
      && Enabled(rules, e, ConnectFinished(err))
      && !AssertsHold(e, ConnectFinished(err))
  {
  }

  /** As written, open, close and open again: the abandoned connect completes
      first, its failure reaches the first handler and closes the engine
      while the second connect is still in flight, whose completion then
      fails the assertion. */
  lemma StaleConnectAsWritten(rules: ResponseRules, err: SysError, later: SysError)
    requires IsError(err)
    ensures
      var e := Open(Close(Open(Initial, 1, NoError).engine), 2, NoError).engine;
      var s := ConnectDone(e, err);
      && e.state == Connecting && e.connects == [1, 2]
      && s.effects == [OpenCompleted(1, err)]
      && s.engine.state == Closed && s.engine.connects == [2]
      && Enabled(rules, s.engine, ConnectFinished(later))
      && !AssertsHold(s.engine, ConnectFinished(later))
  {
  }

  /** With the connect completion corrected, the same open, close, open:
      the abandoned connect reports to the first handler and changes nothing
      else, and the second connect's completion decides the engine's state
      and reaches the second handler. */
  lemma {:induction false} StaleConnectCorrected(rules: ResponseRules, err: SysError, later: SysError)
    ensures
      var e := Open(Close(Open(Initial, 1, NoError).engine), 2, NoError).engine;
      var s := ApplyCorrected(rules, e, ConnectFinished(err));
      var t := ApplyCorrected(rules, s.engine, ConnectFinished(later));
      && s.effects == [OpenCompleted(1, err)]
      && s.engine == e.(connects := [2])
      && t.engine.state == (if IsError(later) then Closed else Connected)
      && OpenCompleted(2, later) in t.effects
      && t.engine.connects == []
  {
    var e := Open(Close(Open(Initial, 1, NoError).engine), 2, NoError).engine;
    assert e.connects == [1, 2] && !AwaitedConnect(e);
    var s := ApplyCorrected(rules, e, ConnectFinished(err));
    assert s.engine.connects == [2] && AwaitedConnect(s.engine);
  }

  /** A connecting engine always has a connect in flight. */
  predicate ConnectsConsistent(e: Engine)
  {
    e.state == Connecting ==> |e.connects| > 0
  }

  /** With the corrections, every step keeps a connect in flight while the
      engine is connecting, and a connect completion changes the engine's
      state exactly when it is the awaited connect. ApplyCorrected needs no
      assertion to hold, so no completion is ever refused. */
  lemma {:induction false} CorrectedKeepsConnects(rules: ResponseRules, e: Engine, ev: Event)
    requires Enabled(rules, e, ev)
    requires ConnectsConsistent(e)
    ensures ConnectsConsistent(ApplyCorrected(rules, e, ev).engine)
    ensures ev.ConnectFinished? ==>
      (ApplyCorrected(rules, e, ev).engine.state != e.state <==> AwaitedConnect(e))
  {
    match ev
    case ConnectFinished(err) =>
      var s := ConnectDoneCorrected(e, err);
      if AwaitedConnect(e) {
        assert s.engine.state != Connecting;
      } else {
        assert s.engine.state == e.state;
      }
    case WriteFinished(err) =>
      assert WriteDone(e, err).engine.state in {e.state, Closed};
    case ResponseRead(o, keep) =>
      assert ReadDone(rules, e, o, keep).engine.state in {e.state, Closed};
    case _ =>
  }

  /** With send corrected, at most one write is ever in flight. */
  lemma {:induction false} SerializedWritesOneAtATime(rules: ResponseRules, e: Engine, ev: Event)
    requires Enabled(rules, e, ev)
    requires |e.writing| <= 1
    ensures |ApplyCorrected(rules, e, ev).engine.writing| <= 1
  {
  }

  /** The requests submitted and not yet finished with, oldest first. */
  function Outstanding(e: Engine): seq<Entry>
  {
    e.writing + e.queue
  }

  function Added(ev: Event): seq<Entry>
  {
    if ev.Submitted? then [Entry(ev.req, ev.cb)] else []
  }

  /** With send corrected, the outstanding requests behave as one FIFO
      queue: a step only adds the submitted entry at the back and only
      removes from the front, so writes start strictly in submission order. */
  lemma {:induction false} SerializedIsFifo(rules: ResponseRules, e: Engine, ev: Event) returns (k: nat)
    requires Enabled(rules, e, ev)
    requires |e.writing| <= 1
    ensures k <= |Outstanding(e) + Added(ev)|
    ensures Outstanding(ApplyCorrected(rules, e, ev).engine) == (Outstanding(e) + Added(ev))[k..]
  {
    match ev
    case Submitted(req, cb) =>
      k := SubmitIsFifo(e, req, cb);
    case WriteFinished(err) =>
      k := WriteDoneIsFifo(e, err);
      assert Added(ev) == [];
      assert Outstanding(e) + Added(ev) == Outstanding(e);
    case _ =>
      k := 0;
      assert Added(ev) == [];
      assert (Outstanding(e) + Added(ev))[0..] == Outstanding(e);
  }

  lemma SubmitIsFifo(e: Engine, req: Request, cb: CallbackId) returns (k: nat)
    ensures k <= |Outstanding(e)| + 1
    ensures Outstanding(PostSerialized(e, req, cb).engine) == (Outstanding(e) + [Entry(req, cb)])[k..]
  {
    var q := e.queue + [Entry(req, cb)];
    var s := PostSerialized(e, req, cb);
    assert Outstanding(e) + [Entry(req, cb)] == e.writing + q;
    if e.writing == [] && IsOpen(e) {
      k := 0;
      assert Outstanding(s.engine) == [q[0]] + q[1..];
    } else if e.writing == [] {
      k := 1;
      assert Outstanding(s.engine) == q[1..];
    } else {
      k := 0;
      assert Outstanding(s.engine) == e.writing + q;
    }
  }

  lemma WriteDoneIsFifo(e: Engine, err: SysError) returns (k: nat)
    requires |e.writing| == 1
    ensures k <= |Outstanding(e)|
    ensures Outstanding(WriteDone(e, err).engine) == Outstanding(e)[k..]
  {
    var s := WriteDone(e, err);
    assert e.writing[1..] == [];
    assert Outstanding(e) == [e.writing[0]] + e.queue;
    if !IsOpen(e) || e.queue == [] {
      k := 1;
      assert s.engine.writing == [] && s.engine.queue == e.queue;
    } else if IsError(err) {
      k := 2;
      assert s.engine.writing == [] && s.engine.queue == e.queue[1..];
    } else {
      k := 1;
      assert s.engine.writing == [e.queue[0]] && s.engine.queue == e.queue[1..];
      assert Outstanding(s.engine) == [e.queue[0]] + e.queue[1..];
    }
  }
}

=== FILE: error_code.dfy ===
/** The library's error enumeration and the (value, category) error codes
    that carry both transport and protocol failures to callbacks. */
module ErrorCodes {

  /** tikpp::error_code, in declaration order. */
  datatype ErrorCode =
    | Success | InvalidResponse
    | UntaggedResponse | UnknownResponseType
    | FatalResponse | NoSuchItem
    | InvalidArgument | Interrupted
    | ScriptFailure | GeneralFailure
    | ApiFailure | TtyFailure
    | ReturnValue | ItemAlreadyExists
    | UnknownParameter | LoginFailure
    | ListEnd | UnknownErrorCategory
    | UnknownError

  /** The enumerators listed in the order they are declared. */
  const Declared: seq<ErrorCode> := [
    Success, InvalidResponse,
    UntaggedResponse, UnknownResponseType,
    FatalResponse, NoSuchItem,
    InvalidArgument, Interrupted,
    ScriptFailure, GeneralFailure,
    ApiFailure, TtyFailure,
    ReturnValue, ItemAlreadyExists,
    UnknownParameter, LoginFailure,
    ListEnd, UnknownErrorCategory,
    UnknownError]

  /** static_cast<int>: the integer an enumerator stands for is its
      position in the declaration. */
  function ToInt(e: ErrorCode): (n: int)
    ensures 0 <= n < |Declared|
    ensures Declared[n] == e
  {
    match e
    case Success => 0
    case InvalidResponse => 1
    case UntaggedResponse => 2
    case UnknownResponseType => 3
    case FatalResponse => 4
    case NoSuchItem => 5
    case InvalidArgument => 6
    case Interrupted => 7
    case ScriptFailure => 8
    case GeneralFailure => 9
    case ApiFailure => 10
    case TtyFailure => 11
    case ReturnValue => 12
    case ItemAlreadyExists => 13
    case UnknownParameter => 14
    case LoginFailure => 15
    case ListEnd => 16
    case UnknownErrorCategory => 17
    case UnknownError => 18
  }

  /** No enumerator is declared twice. */
  lemma DeclaredDistinct()
    ensures forall i, j :: 0 <= i < j < |Declared| ==> Declared[i] != Declared[j]
  {
  }

  /** The values run consecutively from 0 (success) to 18 (unknown_error). */
  lemma ValuesFollowDeclarationOrder()
    ensures |Declared| == 19
    ensures ToInt(Success) == 0 && ToInt(UnknownError) == 18
    ensures forall i :: 0 <= i < |Declared| ==> ToInt(Declared[i]) == i
  {
    DeclaredDistinct();
    forall i | 0 <= i < |Declared|
      ensures ToInt(Declared[i]) == i
    {
      var n := ToInt(Declared[i]);
      assert Declared[n] == Declared[i];
      assert !(n < i) && !(i < n);
    }
  }

  /** Distinct enumerators stand for distinct integers. */
  lemma ToIntInjective(a: ErrorCode, b: ErrorCode)
    ensures ToInt(a) == ToInt(b) <==> a == b
  {
  }

  /** The category half of a boost::system::error_code. */
  datatype Category = SystemCategory | MiscCategory | TikppCategory

  /** boost::system::error_code: an integer value within a category. */
  datatype SysError = SysError(value: int, category: Category)

  /** The error_code's conversion to bool: only a non-zero value is an error. */
  predicate IsError(e: SysError)
  {
    e.value != 0
  }

  /** A default-constructed error_code. */
  const NoError: SysError := SysError(0, SystemCategory)

  /** boost::asio::error::in_progress (EINPROGRESS on Linux). */
  const InProgress: SysError := SysError(115, SystemCategory)

  /** boost::asio::error::not_connected (ENOTCONN on Linux). */
  const NotConnected: SysError := SysError(107, SystemCategory)

  /** boost::asio::error::eof: the stream ended before a read was satisfied. */
  const Eof: SysError := SysError(2, MiscCategory)

  /** make_error_code: the enumerator's value in the library's own category. */
  function MakeErrorCode(e: ErrorCode): (r: SysError)
    ensures r.category == TikppCategory
    ensures IsError(r) <==> e != Success
  {
    SysError(ToInt(e), TikppCategory)
  }

  /** operator==(error_code, error_code enum): the value whose declaration
      position the error code's value names. */
  function Matches(lhs: SysError, rhs: ErrorCode): (b: bool)
    ensures b <==> 0 <= lhs.value < |Declared| && Declared[lhs.value] == rhs
  {
    ValuesFollowDeclarationOrder();
    lhs.value == ToInt(rhs)
  }

  /** The comparison never looks at the category. */
  lemma MatchesIgnoresCategory(value: int, c1: Category, c2: Category, e: ErrorCode)
    ensures Matches(SysError(value, c1), e) <==> Matches(SysError(value, c2), e)
  {
  }

  /** An error code equals success exactly when its value is zero, that is,
      exactly when it does not signal an error. */
  lemma MatchesSuccessIffZero(x: SysError)
    ensures Matches(x, Success) <==> x.value == 0
    ensures Matches(x, Success) <==> !IsError(x)
  {
  }

  /** A code made from an enumerator compares equal to that enumerator and
      to no other one. */
  lemma MakeErrorCodeRoundTrip(e: ErrorCode, f: ErrorCode)
    ensures Matches(MakeErrorCode(e), f) <==> e == f
  {
  }
}

=== FILE: getall.dfy ===
/** The "get all rows" command for a model: its command word is the model's
    API path followed by "/getall", and its single `.proplist` attribute
    lists the model's field names joined by commas. */
module GetAllCommand {
  import opened Protocol
  import opened Requests

  /** What a model contributes to the command: its static API path and the
      field names its convert routine visits, in visiting order. */
  datatype Schema = Schema(apiPath: string, fields: seq<string>)

  const CommandSuffix: string := "/getall"

  const ProplistKey: string := ".proplist"

  /** boost::join(names, ","): no names give the empty string, and the first
      name opens the list; ProplistRoundTrip is the full round trip. */
  function Join(names: seq<string>): (s: string)
    decreases |names|
    ensures |names| == 0 ==> s == ""
    ensures |names| >= 1 ==> names[0] <= s
  {
    if |names| == 0 then ""
    else if |names| == 1 then names[0]
    else names[0] + "," + Join(names[1..])
  }

  /** Splitting at every comma; the partner of Join. */
  function Split(s: string): (parts: seq<string>)
    decreases |s|
    ensures |parts| >= 1
  {
    if |s| == 0 then [""]
    else
      var tail := Split(s[1..]);
      if s[0] == ',' then [""] + tail
      else [[s[0]] + tail[0]] + tail[1..]
  }

  predicate CommaFree(names: seq<string>)
  {
    forall i :: 0 <= i < |names| ==> ',' !in names[i]
  }

  /** getall(tag). */
  function GetAll(schema: Schema, tag: Tag): (r: Request)
    ensures r.command == schema.apiPath + CommandSuffix
    ensures r.tag == tag
    ensures r.params == [Param(ProplistKey, Join(schema.fields))]
    ensures r.query == []
  {
    AddParam(NewRequest(schema.apiPath + CommandSuffix, tag), ProplistKey, Join(schema.fields))
  }

  /** getall(tag, q): the plain command with the given query words added. */
  function GetAllWhere(schema: Schema, tag: Tag, q: seq<string>): (r: Request)
    ensures r.command == GetAll(schema, tag).command
    ensures r.tag == tag && r.params == GetAll(schema, tag).params
    ensures r.query == GetAll(schema, tag).query + q
  {
    WithQuery(GetAll(schema, tag), q)
  }

  lemma {:induction false} SplitCommaFree(a: string)
    requires ',' !in a
    ensures Split(a) == [a]
    decreases |a|
  {
    if |a| > 0 {
      SplitCommaFree(a[1..]);
      assert [a[0]] + a[1..] == a;
    }
  }

  lemma {:induction false} SplitAtFirstComma(a: string, rest: string)
    requires ',' !in a
    ensures Split(a + "," + rest) == [a] + Split(rest)
    decreases |a|
  {
    if |a| == 0 {
      assert a + "," + rest == [','] + rest;
      assert (a + "," + rest)[1..] == rest;
    } else {
      assert (a + "," + rest)[1..] == a[1..] + "," + rest;
      SplitAtFirstComma(a[1..], rest);
      assert [a[0]] + a[1..] == a;
    }
  }

  /** Reading the `.proplist` back by splitting at commas gives exactly the
      field names, in order, when there is at least one and none holds a comma. */
  lemma {:induction false} ProplistRoundTrip(names: seq<string>)
    requires |names| >= 1
    requires CommaFree(names)
    ensures Split(Join(names)) == names
    decreases |names|
  {
    if |names| == 1 {
      SplitCommaFree(names[0]);
    } else {
      assert ',' !in names[0];
      SplitAtFirstComma(names[0], Join(names[1..]));
      ProplistRoundTrip(names[1..]);
      assert [names[0]] + names[1..] == names;
    }
  }

  /** n comma-free names give exactly n - 1 commas; no names give the empty
      string. */
  lemma {:induction false} ProplistCommaCount(names: seq<string>)
    requires CommaFree(names)
    ensures |names| == 0 ==> Join(names) == ""
    ensures |names| >= 1 ==> multiset(Join(names))[','] == |names| - 1
    decreases |names|
  {
    if |names| >= 2 {
      ProplistCommaCount(names[1..]);
      assert ',' !in names[0];
      assert multiset(names[0])[','] == 0;
      assert multiset(names[0] + "," + Join(names[1..]))
          == multiset(names[0]) + multiset(",") + multiset(Join(names[1..]));
    } else if |names| == 1 {
      assert ',' !in names[0];
    }
  }

  /** With comma-free names of which the first and last are non-empty, the
      list neither starts nor ends with a comma. */
  lemma {:induction false} ProplistHasNoStrayComma(names: seq<string>)
    requires |names| >= 1
    requires CommaFree(names)
    requires |names[0]| > 0 && |names[|names| - 1]| > 0
    ensures |Join(names)| > 0
    ensures Join(names)[0] != ','
    ensures Join(names)[|Join(names)| - 1] != ','
  {
    var n := |names|;
    var last := names[n - 1];
    assert ',' !in names[0] && ',' !in last;
    assert names[0][0] in names[0];
    assert last[|last| - 1] in last;
    if n >= 2 {
      JoinAppend(names[..n - 1], [last]);
      assert names[..n - 1] + [last] == names;
    }
  }

  /** Joining a name in front of a non-empty list adds it and one comma. */
  lemma JoinCons(head: string, names: seq<string>)
    requires |names| >= 1
    ensures Join([head] + names) == head + "," + Join(names)
  {
    assert ([head] + names)[1..] == names;
  }

  /** Four names join as the first, a comma, the second, and so on. */
  lemma JoinFour(a: string, b: string, c: string, d: string)
    ensures Join([a, b, c, d]) == a + "," + b + "," + c + "," + d
  {
    JoinCons(c, [d]);
    assert [c, d] == [c] + [d];
    JoinCons(b, [c, d]);
    assert [b, c, d] == [b] + [c, d];
    JoinCons(a, [b, c, d]);
    assert [a, b, c, d] == [a] + [b, c, d];
  }

  /** The names visited first are joined first: joining two non-empty lists
      puts one comma between their joins. */
  lemma {:induction false} JoinAppend(xs: seq<string>, ys: seq<string>)
    requires |xs| >= 1 && |ys| >= 1
    ensures Join(xs + ys) == Join(xs) + "," + Join(ys)
    decreases |xs|
  {
    var zs := xs + ys;
    assert zs[0] == xs[0];
    if |xs| == 1 {
      assert zs[1..] == ys;
      assert Join(zs) == xs[0] + "," + Join(ys);
    } else {
      assert zs[1..] == xs[1..] + ys;
      JoinAppend(xs[1..], ys);
      var head, tail, rest := xs[0], Join(xs[1..]), Join(ys);
      assert Join(zs) == head + "," + (tail + "," + rest);
      assert Join(xs) == head + "," + tail;
      assert head + "," + (tail + "," + rest) == (head + "," + tail) + "," + rest;
    }
  }
}

=== FILE: protocol.dfy ===
/** Vocabulary shared by every part of the RouterOS API client model:
    optional values, stream octets, wire words and request tags. */
module Protocol {

  /** std::optional, as used for a response's tag. */
  datatype Option<+T> = None | Some(value: T)

  /** One octet of the TCP stream. */
  newtype byte = x: int | 0 <= x < 256

  /** A word as it travels on the wire (the payload of one length-prefixed string). */
  type Word = seq<byte>

  /** Number of distinct values of a std::uint32_t. */
  const Uint32Modulus: int := 0x1_0000_0000

  /** A std::uint32_t. */
  type uint32 = n: int | 0 <= n < Uint32Modulus

  /** Request tags are std::uint32_t. */
  type Tag = uint32
}

=== FILE: read_response.dfy ===
/** Reading one response sentence: words are collected until the first empty
    word, then the collected sentence is classified. How a response decides
    its validity, its type, its tag and whether it has properties is defined
    elsewhere in the library and is a parameter (ResponseRules) here. */
module ResponseReader {
  import opened Protocol
  import opened ErrorCodes
  import opened WordReader

  datatype ResponseType = Reply | Done | Trap | Fatal

  /** The parts of tikpp::response this model leaves abstract. */
  datatype ResponseRules = ResponseRules(
    isValid: seq<Word> -> bool,
    typeOf: seq<Word> -> ResponseType,
    tagOf: seq<Word> -> Option<Tag>,
    isEmpty: seq<Word> -> bool)

  /** A response is built from the words of one sentence. */
  datatype Response = Response(words: seq<Word>)

  /** A default-constructed response, handed over alongside every error. */
  const EmptyResponse: Response := Response([])

  /** The two arguments the response handler is called with. */
  datatype Outcome = Outcome(err: SysError, resp: Response)

  /** Either the stream ran out before the sentence ended, so the handler is
      still waiting, or the handler was called once with `outcome` after
      `consumed` word reads. */
  datatype Completion = Waiting | Completed(outcome: Outcome, consumed: nat)

  /** A word read that ends the sentence: a transport error or the empty word. */
  predicate Terminates(ev: WordEvent)
  {
    IsError(ev.err) || |ev.word| == 0
  }

  function WordsOf(events: seq<WordEvent>): (ws: seq<Word>)
    ensures |ws| == |events|
    ensures forall i :: 0 <= i < |events| ==> ws[i] == events[i].word
  {
    seq(|events|, i requires 0 <= i < |events| => events[i].word)
  }

  /** What a complete sentence turns into. The fatal check comes before the
      tag check, and every error is paired with an empty response. */
  function Classify(rules: ResponseRules, words: seq<Word>): (o: Outcome)
    ensures !IsError(o.err) <==>
      rules.isValid(words) && rules.typeOf(words) != Fatal && rules.tagOf(words).Some?
    ensures !IsError(o.err) ==> o.resp == Response(words)
    ensures IsError(o.err) ==> o.resp == EmptyResponse
    ensures Matches(o.err, InvalidResponse) <==> !rules.isValid(words)
    ensures Matches(o.err, FatalResponse) <==>
      rules.isValid(words) && rules.typeOf(words) == Fatal
    ensures Matches(o.err, UntaggedResponse) <==>
      rules.isValid(words) && rules.typeOf(words) != Fatal && rules.tagOf(words).None?
  {
    if !rules.isValid(words) then
      Outcome(MakeErrorCode(InvalidResponse), EmptyResponse)
    else if rules.typeOf(words) == Fatal then
      Outcome(MakeErrorCode(FatalResponse), EmptyResponse)
    else if rules.tagOf(words).None? then
      Outcome(MakeErrorCode(UntaggedResponse), EmptyResponse)
    else
      Outcome(NoError, Response(words))
  }

  /** The handler call made at the word read that ends the sentence. */
  function Finish(rules: ResponseRules, words: seq<Word>, last: WordEvent): Outcome
  {
    if IsError(last.err) then Outcome(last.err, EmptyResponse) else Classify(rules, words)
  }

  /** async_read_response_op::operator(), continued over the remaining word
      reads with the words `collected` so far. */
  function Collect(rules: ResponseRules, events: seq<WordEvent>, collected: seq<Word>): (c: Completion)
    decreases |events|
    ensures c.Completed? <==> exists i :: 0 <= i < |events| && Terminates(events[i])
    ensures c.Completed? ==> 1 <= c.consumed <= |events|
    ensures c.Completed? ==> Terminates(events[c.consumed - 1])
    ensures c.Completed? ==> forall i :: 0 <= i < c.consumed - 1 ==> !Terminates(events[i])
    ensures c.Completed? ==>
      c.outcome == Finish(rules, collected + WordsOf(events[..c.consumed - 1]), events[c.consumed - 1])
  {
    if |events| == 0 then Waiting
    else if Terminates(events[0]) then
      assert collected + WordsOf(events[..0]) == collected;
      Completed(Finish(rules, collected, events[0]), 1)
    else
      match Collect(rules, events[1..], collected + [events[0].word])
      case Waiting =>
        assert forall i :: 1 <= i < |events| ==> events[i] == events[1..][i - 1];
        Waiting
      case Completed(o, n) =>
        assert events[1..][n - 1] == events[n];
        assert WordsOf(events[..n]) == [events[0].word] + WordsOf(events[1..][..n - 1]);
        assert collected + WordsOf(events[..n])
            == (collected + [events[0].word]) + WordsOf(events[1..][..n - 1]);
        Completed(o, n + 1)
  }

  /** async_read_response: read one sentence from a stream of word reads.
      It completes exactly when some read ends the sentence, and then at the
      first such read; what it completes with is ReadResponseOutcome. */
  function ReadResponse(rules: ResponseRules, events: seq<WordEvent>): (c: Completion)
    ensures c.Completed? <==> exists i :: 0 <= i < |events| && Terminates(events[i])
    ensures c.Completed? ==> 1 <= c.consumed <= |events|
    ensures c.Completed? ==> Terminates(events[c.consumed - 1])
    ensures c.Completed? ==> forall i :: 0 <= i < c.consumed - 1 ==> !Terminates(events[i])
  {
    Collect(rules, events, [])
  }

  /** The handler is called exactly once, at the first word read that ends
      the sentence, and with what that read and the words before it give:
      a transport error with an empty response, or the classification of
      exactly the words read before the empty one, in arrival order. */
  lemma {:induction false} ReadResponseOutcome(rules: ResponseRules, events: seq<WordEvent>)
    ensures ReadResponse(rules, events).Completed? <==>
      exists i :: 0 <= i < |events| && Terminates(events[i])
    ensures var c := ReadResponse(rules, events);
      c.Completed? ==>
        && 1 <= c.consumed <= |events|
        && Terminates(events[c.consumed - 1])
        && (forall i :: 0 <= i < c.consumed - 1 ==> !Terminates(events[i]))
        && (IsError(events[c.consumed - 1].err) ==>
              c.outcome == Outcome(events[c.consumed - 1].err, EmptyResponse))
        && (!IsError(events[c.consumed - 1].err) ==>
              c.outcome == Classify(rules, WordsOf(events[..c.consumed - 1])))
  {
    var c := Collect(rules, events, []);
    if c.Completed? {
      assert [] + WordsOf(events[..c.consumed - 1]) == WordsOf(events[..c.consumed - 1]);
    }
  }

  /** A delivered response holds no empty word: the terminator is never stored. */
  lemma {:induction false} DeliveredWordsAreNonEmpty(rules: ResponseRules, events: seq<WordEvent>)
    requires ReadResponse(rules, events).Completed?
    requires !IsError(ReadResponse(rules, events).outcome.err)
    ensures forall w :: w in ReadResponse(rules, events).outcome.resp.words ==> |w| > 0
  {
    ReadResponseOutcome(rules, events);
    var c := ReadResponse(rules, events);
    var n := c.consumed;
    assert !IsError(events[n - 1].err);
    var words := WordsOf(events[..n - 1]);
    assert c.outcome.resp.words == words;
    forall w | w in words
      ensures |w| > 0
    {
      var i :| 0 <= i < |words| && words[i] == w;
      assert !Terminates(events[i]);
    }
  }

  /** Word reads after the terminating one are never consumed: reading on
      from a longer stream gives the same single handler call. */
  lemma {:induction false} ReadResponseIgnoresLaterWords(
    rules: ResponseRules, events: seq<WordEvent>, later: seq<WordEvent>)
    requires ReadResponse(rules, events).Completed?
    ensures ReadResponse(rules, events + later) == ReadResponse(rules, events)
  {
    CollectIgnoresLaterWords(rules, events, later, []);
  }

  lemma {:induction false} CollectIgnoresLaterWords(
    rules: ResponseRules, events: seq<WordEvent>, later: seq<WordEvent>, collected: seq<Word>)
    requires Collect(rules, events, collected).Completed?
    ensures Collect(rules, events + later, collected) == Collect(rules, events, collected)
    decreases |events|
  {
    assert (events + later)[0] == events[0];
    if !Terminates(events[0]) {
      assert (events + later)[1..] == events[1..] + later;
      CollectIgnoresLaterWords(rules, events[1..], later, collected + [events[0].word]);
    }
  }

  /** A response handed over without error is valid, not fatal and tagged;
      every error comes with an empty response. */
  lemma {:induction false} FailuresAreErrors(rules: ResponseRules, events: seq<WordEvent>)
    requires ReadResponse(rules, events).Completed?
    ensures var o := ReadResponse(rules, events).outcome;
      o.resp != EmptyResponse ==> !IsError(o.err) && rules.tagOf(o.resp.words).Some?
    ensures var o := ReadResponse(rules, events).outcome;
      !IsError(o.err) ==>
        rules.isValid(o.resp.words) && rules.typeOf(o.resp.words) != Fatal && rules.tagOf(o.resp.words).Some?
    ensures var o := ReadResponse(rules, events).outcome;
      IsError(o.err) ==> o.resp == EmptyResponse
  {
  }
}

=== FILE: read_word.dfy ===
/** Reading one word from the stream: first the length prefix, then exactly
    that many payload bytes. The length-prefix decoder lives elsewhere in the
    library and is a parameter here. */
module WordReader {
  import opened Protocol
  import opened ErrorCodes

  /** A decoded word length is a std::uint32_t. */
  type Length = uint32

  /** What the length stage hands on: its error code, the decoded length,
      and the stream that follows the prefix. */
  datatype LengthStage = LengthStage(err: SysError, len: Length, rest: seq<byte>)

  type LengthDecoder = seq<byte> -> LengthStage

  /** A word read from the stream, with the stream left after it, or the
      error that ended the read. */
  datatype WordResult = WordRead(word: Word, rest: seq<byte>) | WordFailed(err: SysError)

  /** The two arguments the word handler is called with. */
  datatype WordEvent = WordEvent(err: SysError, word: Word)

  /** async_read_word: an error from the length stage is passed on and no
      payload is read; otherwise exactly `len` bytes are read, and a stream
      that ends first fails with eof. */
  function ReadWord(decode: LengthDecoder, input: seq<byte>): (r: WordResult)
    ensures IsError(decode(input).err) ==> r == WordFailed(decode(input).err)
    ensures var st := decode(input); !IsError(st.err) && |st.rest| < st.len ==> r == WordFailed(Eof)
    ensures r.WordRead? ==> |r.word| == decode(input).len
    ensures r.WordRead? ==> r.word + r.rest == decode(input).rest
    ensures r.WordFailed? ==> IsError(r.err)
  {
    var stage := decode(input);
    if IsError(stage.err) then WordFailed(stage.err)
    else if |stage.rest| < stage.len then WordFailed(Eof)
    else WordRead(stage.rest[..stage.len], stage.rest[stage.len..])
  }

  /** The handler call a read ends in: a failure carries an empty string, a
      success carries a cleared error code. */
  function Deliver(r: WordResult): (ev: WordEvent)
    ensures r.WordFailed? ==> ev.err == r.err && ev.word == []
    ensures r.WordRead? ==> !IsError(ev.err) && ev.word == r.word
  {
    match r
    case WordRead(w, _) => WordEvent(NoError, w)
    case WordFailed(e) => WordEvent(e, [])
  }

  /** The handler sees no error exactly when the length stage succeeded and
      the stream held the whole payload; the word is then `len` bytes long. */
  lemma ReadSucceedsIff(decode: LengthDecoder, input: seq<byte>)
    ensures var ev, st := Deliver(ReadWord(decode, input)), decode(input);
      !IsError(ev.err) <==> !IsError(st.err) && st.len <= |st.rest|
    ensures var ev, st := Deliver(ReadWord(decode, input)), decode(input);
      !IsError(ev.err) ==> |ev.word| == st.len
    ensures var ev := Deliver(ReadWord(decode, input));
      IsError(ev.err) ==> ev.word == []
  {
  }

  /** A payload placed after the length prefix is read back exactly, and the
      bytes after it are left for the next word. */
  lemma ReadsBackPayload(decode: LengthDecoder, input: seq<byte>, payload: Word, tail: seq<byte>)
    requires !IsError(decode(input).err)
    requires decode(input).len == |payload|
    requires decode(input).rest == payload + tail
    ensures ReadWord(decode, input) == WordRead(payload, tail)
  {
    assert (payload + tail)[..|payload|] == payload;
    assert (payload + tail)[|payload|..] == tail;
  }

  /** A decoded length of zero gives the empty word without error and reads
      nothing: this is how a sentence's terminator arrives. */
  lemma ZeroLengthIsTerminator(decode: LengthDecoder, input: seq<byte>)
    requires !IsError(decode(input).err)
    requires decode(input).len == 0
    ensures ReadWord(decode, input) == WordRead([], decode(input).rest)
    ensures Deliver(ReadWord(decode, input)) == WordEvent(NoError, [])
  {
  }
}

=== FILE: request.dfy ===
/** The shape of a request sentence: a command word, the tag that correlates
    responses with it, key/value attribute words and bare query words.
    How a request is encoded into bytes is not part of this model. */
module Requests {
  import opened Protocol

  datatype Param = Param(key: string, value: string)

  datatype Request = Request(command: string, tag: Tag, params: seq<Param>, query: seq<string>)

  /** A request as constructed from a command and a tag: no attributes, no query. */
  function NewRequest(command: string, tag: Tag): Request
  {
    Request(command, tag, [], [])
  }

  /** add_param: attributes keep their insertion order. */
  function AddParam(r: Request, key: string, value: string): Request
  {
    r.(params := r.params + [Param(key, value)])
  }

  /** query: installs the bare query words. */
  function WithQuery(r: Request, q: seq<string>): Request
  {
    r.(query := q)
  }
}

=== FILE: user.dfy ===
/** The hotspot user model: its API path and the keys its convert routine
    visits, which make up the `.proplist` of its "get all" command. The base
    model's own keys come from a part of the library outside this model and
    are a parameter here. */
module HotspotUser {
  import opened Protocol
  import opened Requests
  import opened GetAllCommand

  const ApiPath: string := "/ip/hotspot/user"

  /** The user's own data members. */
  datatype User = User(name: string, password: string, profile: string, disabled: bool)

  datatype Member = Name | Password | Profile | Disabled

  /** A member's identifier as declared in the record. */
  function MemberName(m: Member): string
  {
    match m
    case Name => "name"
    case Password => "password"
    case Profile => "profile"
    case Disabled => "disabled"
  }

  datatype FieldValue = Text(text: string) | Flag(flag: bool)

  /** The value a member holds. */
  function Field(u: User, m: Member): FieldValue
  {
    match m
    case Name => Text(u.name)
    case Password => Text(u.password)
    case Profile => Text(u.profile)
    case Disabled => Flag(u.disabled)
  }

  /** One visit of convert: a key bound to a field of the base model or to
      one of the user's own members. */
  datatype Binding = BaseBinding(key: string) | MemberBinding(key: string, member: Member)

  /** The user's own visits, in the order convert makes them. */
  const OwnBindings: seq<Binding> := [
    MemberBinding("name", Name),
    MemberBinding("password", Password),
    MemberBinding("profile", Profile),
    MemberBinding("disabled", Disabled)]

  /** convert: the base model's keys are visited first, then the user's own. */
  function Convert(baseKeys: seq<string>): (bs: seq<Binding>)
    ensures |bs| == |baseKeys| + |OwnBindings|
    ensures forall i :: 0 <= i < |baseKeys| ==> bs[i] == BaseBinding(baseKeys[i])
    ensures bs[|baseKeys|..] == OwnBindings
  {
    seq(|baseKeys|, i requires 0 <= i < |baseKeys| => BaseBinding(baseKeys[i])) + OwnBindings
  }

  /** The proplist collector: the visited keys, in visiting order. */
  function Keys(bs: seq<Binding>): (ks: seq<string>)
    ensures |ks| == |bs|
    ensures forall i :: 0 <= i < |bs| ==> ks[i] == bs[i].key
  {
    seq(|bs|, i requires 0 <= i < |bs| => bs[i].key)
  }

  function UserSchema(baseKeys: seq<string>): Schema
  {
    Schema(ApiPath, Keys(Convert(baseKeys)))
  }

  /** Each of the user's four keys is distinct and bound to the member of
      the same name, and every member is bound exactly once. */
  lemma OwnKeysMatchMembers()
    ensures forall i :: 0 <= i < |OwnBindings| ==>
      OwnBindings[i].MemberBinding? && OwnBindings[i].key == MemberName(OwnBindings[i].member)
    ensures forall i, j :: 0 <= i < j < |OwnBindings| ==>
      OwnBindings[i].key != OwnBindings[j].key && OwnBindings[i].member != OwnBindings[j].member
    ensures Keys(OwnBindings) == OwnKeys
  {
  }

  /** The same bindings seen from a user: the key at each position reads the
      member of that name. */
  lemma OwnBindingsMatchMembers(u: User)
    ensures forall i :: 0 <= i < |OwnBindings| ==>
      OwnBindings[i].MemberBinding? && OwnBindings[i].key == MemberName(OwnBindings[i].member)
    ensures forall i, j :: 0 <= i < j < |OwnBindings| ==>
      OwnBindings[i].key != OwnBindings[j].key && OwnBindings[i].member != OwnBindings[j].member
    ensures Keys(OwnBindings) == OwnKeys
    ensures Field(u, OwnBindings[0].member) == Text(u.name)
    ensures Field(u, OwnBindings[1].member) == Text(u.password)
    ensures Field(u, OwnBindings[2].member) == Text(u.profile)
    ensures Field(u, OwnBindings[3].member) == Flag(u.disabled)
  {
    OwnKeysMatchMembers();
  }

  const OwnKeys: seq<string> := ["name", "password", "profile", "disabled"]

  /** The user's own keys as they appear in a `.proplist`. */
  const OwnProplist: string := "name,password,profile,disabled"

  lemma JoinOwnKeys()
    ensures Join(OwnKeys) == OwnProplist
  {
    JoinFour("name", "password", "profile", "disabled");
  }

  /** The keys convert visits are the base keys followed by the user's own. */
  lemma {:induction false} VisitedKeys(baseKeys: seq<string>)
    ensures UserSchema(baseKeys).fields == baseKeys + OwnKeys
  {
    var bs := Convert(baseKeys);
    var keys := Keys(bs);
    forall i | 0 <= i < |keys|
      ensures keys[i] == (baseKeys + OwnKeys)[i]
    {
      if i >= |baseKeys| {
        assert bs[i] == bs[|baseKeys|..][i - |baseKeys|];
        OwnKeysMatchMembers();
      }
    }
  }

  /** The user's "get all" command is "/ip/hotspot/user/getall", and its
      `.proplist` is the base keys' list followed by
      "name,password,profile,disabled". */
  lemma {:induction false} UserGetAll(baseKeys: seq<string>, tag: Tag)
    ensures GetAll(UserSchema(baseKeys), tag).command == "/ip/hotspot/user/getall"
    ensures |baseKeys| == 0 ==>
      GetAll(UserSchema(baseKeys), tag).params == [Param(ProplistKey, OwnProplist)]
    ensures |baseKeys| >= 1 ==>
      GetAll(UserSchema(baseKeys), tag).params == [Param(ProplistKey, Join(baseKeys) + "," + OwnProplist)]
  {
    VisitedKeys(baseKeys);
    JoinOwnKeys();
    if |baseKeys| >= 1 {
      JoinAppend(baseKeys, OwnKeys);
    } else {
      assert baseKeys + OwnKeys == OwnKeys;
    }
  }
}
